=== FILE: README.md ===
# Daily progression engine of a self-discipline RPG, in Dafny

This project models the rules engine of a browser "self-discipline RPG".
The player has a level, experience and five stats (strength, agility,
intelligence, vitality, willpower). Daily quests train one stat each. When a
quest is completed the player gets a stat point and 20 experience. At the
first visit of a new day every open quest costs 10 experience and one point
of its stat; then all quests are reopened. Completing every quest of a day
records that day in the streak list, and the streak statistics (longest run,
current run) are computed from it. The player may log "interference" on a
day. Seven interfered days in a row put the next day under suppression,
which blocks every positive reward for that day.

Browser state becomes plain values. Calendar dates are integer day numbers.
The current day, the hour and the animation timestamp are parameters.
"Is today suppressed" is passed as a boolean wherever the source asks
`isSuppressed()`.

Modules, one per source file, plus two shared ones:

- `Common`: `Option`, `Result`, `NoDup`, `Max`.
- `Bands`: counting the thresholds a level has reached. Titles, ranks and tiers are all such band lookups.
- `Core` (core.js): the experience curve, `GainXP` with its level-up and level-down loops, titles, suppression and the default player.
- `Daily` (daily.js): adding, editing and deleting quests, trimming names, completing a quest and the streak check.
- `Streak` (streak.js): `CalculateStreakStats`, proved against a set-level specification of runs of consecutive days.
- `Ui` (ui.js): the interference log, the status badge, tiers, sub-tiers, ranks and the particle cap.
- `Timer` (timer.js): the daily rollover, the midnight countdown, the Pomodoro timer and the reminder markers.

The experience state is explained through a total. `Core.Total` is the
experience of all completed levels plus the current experience.
`Core.Normalized` is the invariant `GainXP` keeps: level at least 1, xp below
the current requirement, and xp non-negative except at level 1.
`Core.NormalFormUnique` shows that a normalized state is determined by its
total. From this, `GainXP` adds its amount to the total and two gains
compose (`Core.GainXPAdditive`).

## Model

| member | source | states |
|---|---|---|
| Core.XpNeeded | core.js:34-36 | the requirement is floor(100 + 1.2·L²), within one of the real value; at least 100, and at least 101 for every non-zero level |
| Core.LevelUp | core.js:65-68 | the level-up loop never lowers the level, ends with xp below the requirement, keeps non-negative xp non-negative and keeps the total |
| Core.LevelDown | core.js:70-73 | the level-down loop only runs while level > 1, never goes below level 1, leaves xp non-negative unless level 1 is reached, and keeps the total |
| Core.SuppressionGate | core.js:49-62 | a positive gain leaves the player unchanged exactly when the stored suppression day is today; the same stored date does not suppress the next day, and whether suppression continues is decided by the rollover (`Timer.SuppressionRenews`) |
| Core.GainXP | core.js:56-73 | a positive amount under suppression changes nothing; otherwise xp ends below the requirement and is negative only at level 1 (no clamp), level stays ≥ 1, the total grows by exactly the amount, the invariant is kept, stats are untouched, and a gain never lowers (a loss never raises) the level |
| Core.NormalFormUnique | core.js:63-73 | two normalized players with the same total have the same level and xp |
| Core.CumXpGrows | core.js:34-36 | every completed level adds at least 101 to the cumulative requirement |
| Core.GainXPAdditive | core.js:63-73 | unsuppressed gains of a and then b equal one gain of a + b |
| Core.FirstLevelUp | core.js:34-68 | level 1 needs 101, and gaining 101 from the default player gives level 2 with 0 xp |
| Core.NewPlayer | core.js:18-22 | the default player is normalized with total 0 (level 1, xp 0) and has every stat at 10 |
| Core.GetTitle | core.js:39-46 | the title's index is the number of thresholds 30/50/71/100/150 reached |
| Core.GetTitleMonotone | core.js:39-46 | the title never drops as the level grows |
| Daily.Trim | daily.js:166 | the trimmed name is the slice between the first and last non-space; only white space is removed; it is empty exactly when the name is all white space |
| Daily.SaveQuest | daily.js:165-182 | an all-blank name is refused and changes nothing; a new quest is appended open with the trimmed name and the chosen stat, the rest untouched; an edit sets only the name, clears completion and keeps the stat |
| Daily.AddQuest | daily.js:104-109 | adding to a list of 15 is refused; it succeeds exactly when the list has room and the name is not blank, and the list never exceeds 15 |
| Daily.DeleteQuest | daily.js:194-201 | the quest at the index is removed and the others keep their order; nothing else changes; creating-mode or an unknown index removes nothing |
| Daily.CheckStreak | daily.js:212-225 | today is in the result exactly when it was already there or the list is non-empty and all quests are done; nothing else is added and no duplicate appears |
| Daily.CompleteQuest | daily.js:111-133 | an unknown index or a completed quest is a no-op; otherwise the quest is done, its stat gains one unless suppressed, no other stat changes, the total grows by 20 unless suppressed, and the streak check runs |
| Daily.CompletingLastQuestRecordsDay | daily.js:111-133 | completing the last open quest records today as a streak day |
| Streak.SortDays | streak.js:24 | sorting yields an ascending permutation of the days |
| Streak.SortedUnique | streak.js:24 | two ascending permutations of the same days are equal |
| Streak.LongestRun | streak.js:30-48 | on sorted non-empty days, the scan yields the length of the longest run of consecutive days, between 1 and the number of entries; duplicates neither extend nor break a run |
| Streak.TrailingRun | streak.js:58-72 | the count going back from the last entry is the run ending at the largest day, stopping at the first gap other than 1 |
| Streak.CalculateStreakStats | streak.js:20-78 | empty days give 0 and 0; otherwise the longest run, and the trailing run when today or yesterday is present (else 0); current ≤ max ≤ number of entries |
| Streak.StreakSpecDeterministic | streak.js:20-78 | the specification fixes both statistics |
| Streak.StreakSpecOrderIndependent | streak.js:24-72 | reordering the recorded days does not change the statistics |
| Streak.StreakExample | streak.js:24-72 | days D, D+1, D+2, D+5 on day D+5 give longest 3 and current 1 |
| Ui.LogInterference | ui.js:115-131 | today's tags become the old tags followed by the new types not yet present; no duplicate is introduced, even within one call; every other day is unchanged |
| Ui.LogInterferenceIdempotent | ui.js:115-131 | logging the same types twice equals logging them once |
| Ui.LoggingMarksDay | ui.js:133-137 | after logging any non-empty list of types the day counts as interfered; other days keep their standing |
| Ui.SystemStatus | ui.js:217-232 | the badge is Suppression exactly when suppressed, Unstable exactly when not suppressed and interfered today, and Stable otherwise |
| Ui.StatusAfterLogging | ui.js:211-232 | after logging interference the status is Unstable unless today is suppressed |
| Ui.GetTier | ui.js:14-18 | the tier is 1 plus the number of thresholds 100/150 reached |
| Ui.GetSubTier | ui.js:404-414 | a sub-tier exists exactly in tier 1, banded at levels 50 and 71 |
| Ui.GetRank | ui.js:383-392 | the rank's index is the number of thresholds 20/40/60/80/100/120/150 reached |
| Ui.BandsMonotone | ui.js:14-18 | tier and rank never drop as the level grows |
| Ui.SpawnParticle | ui.js:20-60 | at the cap nothing is spawned; otherwise one particle with the tier's lifetime is appended |
| Ui.Alive | ui.js:63-74 | the surviving particles are exactly those not yet expired, so the list never grows |
| Ui.AnimateParticles | ui.js:63-74 | the backward splice loop leaves exactly the unexpired particles, in order |
| Ui.ParticleCapHolds | ui.js:11-74 | over any sequence of spawns and frames the particle count stays within 25 |
| Timer.Countdown | timer.js:9-13 | for a non-negative difference, minutes and seconds are below 60 and h:m:s is the difference rounded down to the second; a day or less shows at most 24 hours |
| Timer.PomodoroTick | timer.js:190-202 | only the tick reaching zero awards experience: 5 unless suppressed, and none under suppression |
| Timer.TickTimer | timer.js:191-197 | reaching zero stops the timer and rearms 2100 seconds; above one second the tick lowers the time by exactly one and keeps the running flag |
| Timer.ResetPomodoro | timer.js:205-211 | reset always restores 2100 seconds, stopped |
| Timer.StartPomodoro | timer.js:186-190 | starting runs the timer without touching the time |
| Timer.SessionLength | timer.js:190-197 | a running session of t seconds counts down by one per tick and finishes on exactly its t-th tick |
| Timer.PomodoroClock | timer.js:179-184 | the display's minutes and seconds recompose the time, seconds below 60 |
| Timer.HasIncompleteQuests | timer.js:123-126 | some quest is open exactly when the quests are not all done, which needs a non-empty list |
| Timer.ResetLeavesQuestsOpen | timer.js:123-126 | right after the daily reset, a quest is open exactly when the list is non-empty |
| Timer.CheckScheduledNotifications | timer.js:144-164 | each reminder is sent from its hour on, only if its marker is not today and a quest is open; the marker is set from the hour on whether or not anything was sent |
| Timer.RemindersOncePerDay | timer.js:144-164 | a reminder sent once is not sent again on the same day |
| Timer.ApplyDailyPenalty | timer.js:82-109 | each stat drops by its open quests but never below 0, and a stat already at 0 or below stays; completed quests cost nothing; the total drops by 10 per open quest despite suppression; the invariant is kept; "applied" holds exactly when some positive stat has an open quest |
| Timer.PenaltyIsOneExperienceChange | timer.js:85-96 | the penalty's level and xp equal those of one gain of -10 per open quest |
| Timer.ResetDailyCompletion | timer.js:111-117 | every quest is open again, with names, stats, length and order unchanged |
| Timer.ConsecutiveInterference | timer.js:51-64 | the count is at most 7, every counted day back from yesterday is interfered, and a count below 7 stops at a day without interference |
| Timer.CheckForSuppression | timer.js:47-71 | today becomes suppressed when each of the seven previous days is interfered; otherwise suppression is untouched |
| Timer.RunDailySystemOnce | timer.js:23-44 | a stored suppression day other than today is cleared whatever the last-day marker says; on the recorded day nothing else changes; on a new day the penalty, the reset and the suppression check run, today becomes the last day, and the penalty date becomes today exactly when some open quest's stat was above 0; the level/xp invariant is kept |
| Timer.RunDailySystemOnceIdempotent | timer.js:23-44 | a second run on the same day is a no-op |
| Timer.SevenDaysSuppress | timer.js:35-71 | a new day after seven interfered days is suppressed |
| Timer.SuppressionEndsNextDay | timer.js:29-33 | suppression ends the next day when nothing was logged on the suppressed day |
| Timer.SuppressionRenews | timer.js:29-71 | suppression is renewed the next day when interference went on through the suppressed day |

## Left out

- DOM and event wiring are left out because they are presentation only: modals, long-press handlers, rendering, notes, avatar upload and the streak calendar.
- Floating-point visuals are left out: particle opacity and motion curves, the XP ring, percentage bars, star fields and glow colours.
- localStorage, JSON parsing and `new Date()` are left out. State is a value, days are integers, and the hour and timestamps are parameters.
- Corrupt saved data and unknown stat keys are not modelled: a stat is one of five constructors.
- The source keys some dates by ISO UTC date and others by local date string. All of them are the same `today` here.
- Service-worker notifications and sw.js caching are browser APIs. A reminder is modelled only as a `Notice` in the result.
- `setInterval` and `requestAnimationFrame` scheduling are left out; only the per-tick transitions are modelled.
- The weighted envelope scoring and the quest cadence and visibility rules are left out. They are not part of core.js, daily.js, streak.js, timer.js or ui.js, the files this model follows.
- The Python screenshot scripts are not logic and are left out.
- Core.XpNeeded: uses exact integer arithmetic, 100 + (6·L²)/5, for the floating-point `Math.floor(100 + L*L*1.2)`. The two agree for every level up to 61,261,731 in absolute value, where the product stays below 2^52. From level 61,261,732 on, the double product can round up to the next integer, so the source can ask for one more experience point. That rounding is not modelled.
- Ui.AnimateParticles: `createdAt` and the frame timestamp are integers here. The source takes them from `performance.now()` and `requestAnimationFrame`, which give fractional milliseconds. The expiry comparison `elapsed >= duration` is otherwise the same.
- Daily.CompleteQuest: the stat is raised with `+= 1` on an integer. Stats that are missing in saved data, which the source would turn into NaN, are not modelled.

Behaviours of the code a reader may not expect:

- `GainXP` does not clamp experience at level 1, so a level-1 player can hold negative xp.
- Deleting a completed quest does not take back the stat point or experience it earned.
- Editing a quest reopens it.
- The comment at timer.js:27-28 says suppression lasts one day only, but the code makes clearing conditional. A suppression day is cleared on the next day, but the rollover's check then sets suppression again if interference was logged on the suppressed day and the six days before it (`Timer.SuppressionRenews`).

=== FILE: bands.dfy ===
/** Level bands. Titles, ranks and visual tiers are all chosen by an
    if-chain over ascending level thresholds; the band index of a level is
    the number of thresholds it has reached. */
module Bands {

  /** Every threshold is strictly below the next one. */
  predicate Ascending(thresholds: seq<int>) {
    forall i, j :: 0 <= i < j < |thresholds| ==> thresholds[i] < thresholds[j]
  }

  /** How many of `thresholds` are at or below `level`. */
  function Reached(thresholds: seq<int>, level: int): (r: nat)
    ensures r <= |thresholds|
  {
    if |thresholds| == 0 then 0
    else (if thresholds[0] <= level then 1 else 0) + Reached(thresholds[1..], level)
  }

  /** A higher level never reaches fewer thresholds. */
  lemma {:induction false} ReachedMonotone(thresholds: seq<int>, a: int, b: int)
    requires a <= b
    ensures Reached(thresholds, a) <= Reached(thresholds, b)
    decreases |thresholds|
  {
    if |thresholds| > 0 {
      ReachedMonotone(thresholds[1..], a, b);
    }
  }

  /** For ascending thresholds the count is a band index: the level lies
      between the last threshold reached and the first one not reached. */
  lemma {:induction false} ReachedIsBand(thresholds: seq<int>, level: int)
    requires Ascending(thresholds)
    ensures var k := Reached(thresholds, level);
      && (forall i :: 0 <= i < k ==> thresholds[i] <= level)
      && (forall i :: k <= i < |thresholds| ==> level < thresholds[i])
    decreases |thresholds|
  {
    if |thresholds| > 0 {
      var rest := thresholds[1..];
      ReachedIsBand(rest, level);
      var k' := Reached(rest, level);
      if thresholds[0] > level {
        // every later threshold is larger still, so none is reached
        assert forall i :: 0 <= i < |rest| ==> level < rest[i] by {
          forall i | 0 <= i < |rest| ensures level < rest[i] {
            assert rest[i] == thresholds[i + 1];
          }
        }
        assert k' == 0;
      }
    }
  }

  /** A band index is pinned down by its two neighbouring thresholds. */
  lemma BandIndex(thresholds: seq<int>, level: int, k: nat)
    requires Ascending(thresholds)
    requires k <= |thresholds|
    requires k == 0 || thresholds[k - 1] <= level
    requires k == |thresholds| || level < thresholds[k]
    ensures Reached(thresholds, level) == k
  {
    ReachedIsBand(thresholds, level);
  }
}

=== FILE: common.dfy ===
/** Small shared vocabulary: optional values, error-carrying results and
    duplicate-freedom of sequences. */
module Common {

  /** A value that may be absent (a missing storage key, an unset date). */
  datatype Option<+T> = None | Some(value: T)

  /** The outcome of a user command that can be refused. */
  datatype Result<+T, +E> = Ok(value: T) | Err(error: E)

  /** No element occurs twice in `s`. */
  predicate NoDup<T(==)>(s: seq<T>) {
    forall i, j :: 0 <= i < j < |s| ==> s[i] != s[j]
  }

  function Max(a: int, b: int): int {
    if a >= b then a else b
  }
}

=== FILE: core.dfy ===
/** Player progression: the experience curve, level normalisation after an
    experience change, titles, the suppression gate and the default player. */
module Core {
  import opened Common
  import Bands

  /** The five attributes a quest can train. */
  datatype Stat = Str | Agi | Int | Vit | Will

  datatype Stats = Stats(strength: int, agility: int, intelligence: int, vitality: int, willpower: int) {

    function Get(s: Stat): int {
      match s
      case Str => strength
      case Agi => agility
      case Int => intelligence
      case Vit => vitality
      case Will => willpower
    }

    /** Replaces one attribute and keeps the other four. */
    function Set(s: Stat, v: int): (r: Stats)
      ensures r.Get(s) == v
      ensures forall t :: t != s ==> r.Get(t) == Get(t)
    {
      match s
      case Str => this.(strength := v)
      case Agi => this.(agility := v)
      case Int => this.(intelligence := v)
      case Vit => this.(vitality := v)
      case Will => this.(willpower := v)
    }
  }

  datatype Player = Player(level: int, xp: int, stats: Stats)

  /** Experience needed to leave `level`: floor(100 + level * level * 1.2),
      computed in exact integer arithmetic. */
  function XpNeeded(level: int): (r: int)
    ensures r as real <= 100.0 + (level * level) as real * 1.2 < r as real + 1.0
    ensures r >= 100
    ensures level != 0 ==> r >= 101
  {
    100 + (6 * level * level) / 5
  }

  /** Experience accumulated in all levels below `level` (levels 1 .. level-1). */
  function CumXp(level: int): int
    decreases level
  {
    if level <= 1 then 0 else CumXp(level - 1) + XpNeeded(level - 1)
  }

  /** Lifetime experience of a player: what every experience change moves. */
  function Total(p: Player): int {
    CumXp(p.level) + p.xp
  }

  /** The shape gainXP leaves a player in: level at least 1, experience below
      the current threshold, and negative only at level 1 (there is no clamp). */
  predicate Normalized(p: Player) {
    && p.level >= 1
    && p.xp < XpNeeded(p.level)
    && (p.xp >= 0 || p.level == 1)
  }

  /** The level-up loop of gainXP. */
  function LevelUp(level: int, xp: int): (r: (int, int))
    ensures r.0 >= level
    ensures r.1 < XpNeeded(r.0)
    ensures xp >= 0 ==> r.1 >= 0
    ensures xp < XpNeeded(level) ==> r == (level, xp)
    ensures level >= 1 ==> CumXp(r.0) + r.1 == CumXp(level) + xp
    decreases xp
  {
    if xp >= XpNeeded(level) then LevelUp(level + 1, xp - XpNeeded(level))
    else (level, xp)
  }

  /** The level-down loop of gainXP: it only runs while the level exceeds 1. */
  function LevelDown(level: int, xp: int): (r: (int, int))
    ensures r.0 <= level
    ensures level >= 1 ==> r.0 >= 1
    ensures r.1 >= 0 || r.0 <= 1
    ensures xp < XpNeeded(level) ==> r.1 < XpNeeded(r.0)
    ensures xp >= 0 ==> r == (level, xp)
    ensures level >= 1 ==> CumXp(r.0) + r.1 == CumXp(level) + xp
    decreases level
  {
    if xp < 0 && level > 1 then LevelDown(level - 1, xp + XpNeeded(level - 1))
    else (level, xp)
  }

  /** isSuppressed: the stored suppression date is today. */
  function IsSuppressed(suppression: Option<int>, today: int): bool {
    suppression == Some(today)
  }

  /** The gate gainXP consults: a gain is dropped exactly on the stored
      suppression day. The same stored date does not gate the next day;
      whether suppression is set again is up to the daily rollover. */
  lemma SuppressionGate(p: Player, suppression: Option<int>, today: int, amount: int)
    requires p.level >= 1 && amount > 0
    ensures GainXP(p, amount, IsSuppressed(suppression, today)) == p <==> suppression == Some(today)
    ensures IsSuppressed(suppression, today) ==> !IsSuppressed(suppression, today + 1)
  {
    if suppression != Some(today) {
      assert Total(GainXP(p, amount, false)) == Total(p) + amount;
    }
  }

  /** gainXP: a positive amount is dropped while suppressed; otherwise the
      amount is added and the level renormalised up, then down. */
  function GainXP(p: Player, amount: int, suppressed: bool): (r: Player)
    ensures r.stats == p.stats
    ensures suppressed && amount > 0 ==> r == p
    ensures !(suppressed && amount > 0) ==>
      && r.xp < XpNeeded(r.level)
      && (r.xp >= 0 || r.level <= 1)
    ensures !(suppressed && amount > 0) && p.level >= 1 ==>
      && r.level >= 1
      && Total(r) == Total(p) + amount
    ensures Normalized(p) ==> Normalized(r)
    ensures Normalized(p) && amount > 0 ==> r.level >= p.level
    ensures Normalized(p) && amount < 0 ==> r.level <= p.level
  {
    if suppressed && amount > 0 then p
    else
      var up := LevelUp(p.level, p.xp + amount);
      var down := LevelDown(up.0, up.1);
      p.(level := down.0, xp := down.1)
  }

  /** Each level's threshold is more than the experience it can hold, so the
      accumulated experience strictly grows with the level. */
  lemma {:induction false} CumXpGrows(a: int, b: int)
    requires 1 <= a <= b
    ensures CumXp(a) + (b - a) * 101 <= CumXp(b)
    decreases b - a
  {
    if a < b {
      CumXpGrows(a, b - 1);
    }
  }

  /** A normalised player is determined by its lifetime experience: the
      level and experience gainXP produces are the only ones possible. */
  lemma NormalFormUnique(p: Player, q: Player)
    requires Normalized(p) && Normalized(q)
    requires Total(p) == Total(q)
    ensures p.level == q.level && p.xp == q.xp
  {
    if p.level < q.level {
      TotalBelowHigherLevel(p, q.level);
    } else if q.level < p.level {
      TotalBelowHigherLevel(q, p.level);
    }
  }

  /** A normalised player holds less experience than reaching any higher
      level takes. */
  lemma TotalBelowHigherLevel(p: Player, level: int)
    requires Normalized(p) && p.level < level
    ensures Total(p) < CumXp(level)
  {
    CumXpGrows(p.level + 1, level);
    assert CumXp(p.level + 1) == CumXp(p.level) + XpNeeded(p.level);
  }

  /** Two experience changes in a row land where their sum lands at once. */
  lemma GainXPAdditive(p: Player, a: int, b: int)
    requires p.level >= 1
    ensures GainXP(GainXP(p, a, false), b, false) == GainXP(p, a + b, false)
  {
    NormalFormUnique(GainXP(GainXP(p, a, false), b, false), GainXP(p, a + b, false));
  }

  /** The player loadPlayer creates when nothing usable is stored. */
  function NewPlayer(): (p: Player)
    ensures Normalized(p) && Total(p) == 0
    ensures forall s :: p.stats.Get(s) == 10
  {
    Player(1, 0, Stats(10, 10, 10, 10, 10))
  }

  /** The experience needed at level 1 takes a fresh player to level 2 exactly. */
  lemma FirstLevelUp()
    ensures XpNeeded(1) == 101
    ensures GainXP(NewPlayer(), 101, false) == Player(2, 0, NewPlayer().stats)
  {
    assert LevelUp(2, 0) == (2, 0);
    assert LevelUp(1, 101) == (2, 0);
    assert LevelDown(2, 0) == (2, 0);
  }

  datatype Title = Unawakened | Awakened | SRankHunter | MonarchCandidate | ShadowMonarch | GrimReaper {
    function Index(): nat {
      match this
      case Unawakened => 0
      case Awakened => 1
      case SRankHunter => 2
      case MonarchCandidate => 3
      case ShadowMonarch => 4
      case GrimReaper => 5
    }
  }

  const TitleThresholds: seq<int> := [30, 50, 71, 100, 150]

  /** getTitle: the title's position is the number of thresholds reached. */
  function GetTitle(level: int): (t: Title)
    ensures t.Index() == Bands.Reached(TitleThresholds, level)
  {
    var t :=
      if level >= 150 then GrimReaper
      else if level >= 100 then ShadowMonarch
      else if level >= 71 then MonarchCandidate
      else if level >= 50 then SRankHunter
      else if level >= 30 then Awakened
      else Unawakened;
    Bands.BandIndex(TitleThresholds, level, t.Index());
    t
  }

  /** Titles only improve as the level grows. */
  lemma GetTitleMonotone(a: int, b: int)
    requires a <= b
    ensures GetTitle(a).Index() <= GetTitle(b).Index()
  {
    Bands.ReachedMonotone(TitleThresholds, a, b);
  }
}

=== FILE: daily.dfy ===
/** The daily quest list: the capacity-capped add flow, the save handler for
    new and edited quests, deletion, completing a quest and the streak check
    that follows a completion. */
module Daily {
  import opened Common
  import opened Core

  const MaxDailyQuests: nat := 15

  datatype Quest = Quest(name: string, stat: Stat, completed: bool)

  /** What the quest modal was opened for: a new quest or a listed one. */
  datatype Target = NewQuest | Existing(index: nat)

  datatype QuestError = CapacityExceeded | EmptyName | NotFound

  /** The characters String.prototype.trim strips: ECMAScript white space
      and line terminators. */
  predicate IsSpace(c: char) {
    var n := c as int;
    || (0x09 <= n <= 0x0D)                 // tab, line feed, vertical tab, form feed, carriage return
    || n == 0x20 || n == 0xA0 || n == 0x1680
    || (0x2000 <= n <= 0x200A)             // en quad .. hair space
    || n == 0x2028 || n == 0x2029          // line and paragraph separators
    || n == 0x202F || n == 0x205F || n == 0x3000
    || n == 0xFEFF                         // byte order mark
  }

  /** Number of white-space characters trim removes from the front. */
  function Leading(s: string): (k: nat)
    ensures k <= |s|
    ensures forall i :: 0 <= i < k ==> IsSpace(s[i])
    ensures k < |s| ==> !IsSpace(s[k])
    decreases |s|
  {
    if |s| > 0 && IsSpace(s[0]) then 1 + Leading(s[1..]) else 0
  }

  /** Number of white-space characters trim removes from the back. */
  function Trailing(s: string): (k: nat)
    ensures k <= |s|
    ensures forall i :: |s| - k <= i < |s| ==> IsSpace(s[i])
    ensures k < |s| ==> !IsSpace(s[|s| - 1 - k])
    decreases |s|
  {
    if |s| > 0 && IsSpace(s[|s| - 1]) then 1 + Trailing(s[..|s| - 1]) else 0
  }

  /** trim: the longest slice of `s` with no white space at either end. */
  function Trim(s: string): (r: string)
    ensures Leading(s) + |r| <= |s|
    ensures forall j :: 0 <= j < |r| ==> r[j] == s[Leading(s) + j]
    ensures forall i :: 0 <= i < Leading(s) ==> IsSpace(s[i])
    ensures forall i :: Leading(s) + |r| <= i < |s| ==> IsSpace(s[i])
    ensures |r| > 0 ==> !IsSpace(r[0]) && !IsSpace(r[|r| - 1])
    ensures r == [] <==> forall i :: 0 <= i < |s| ==> IsSpace(s[i])
  {
    var k := Leading(s);
    var rest := s[k..];
    var t := Trailing(rest);
    TrimSlices(s, k, rest, t);
    rest[..|rest| - t]
  }

  /** Dropping k white-space characters from the front and t from the back
      of what remains, where the characters next to the cut are not white
      space, leaves a slice that is empty exactly when `s` is all white
      space. */
  lemma TrimSlices(s: string, k: nat, rest: string, t: nat)
    requires k <= |s| && rest == s[k..]
    requires forall i :: 0 <= i < k ==> IsSpace(s[i])
    requires k < |s| ==> !IsSpace(s[k])
    requires t <= |rest|
    requires forall i :: |rest| - t <= i < |rest| ==> IsSpace(rest[i])
    requires t < |rest| ==> !IsSpace(rest[|rest| - 1 - t])
    ensures var r := rest[..|rest| - t];
      && (forall j :: 0 <= j < |r| ==> r[j] == s[k + j])
      && (forall i :: k + |r| <= i < |s| ==> IsSpace(s[i]))
      && (|r| > 0 ==> !IsSpace(r[0]) && !IsSpace(r[|r| - 1]))
      && (r == [] <==> forall i :: 0 <= i < |s| ==> IsSpace(s[i]))
  {
    var r := rest[..|rest| - t];
    forall i | k + |r| <= i < |s|
      ensures IsSpace(s[i])
    {
      assert s[i] == rest[i - k];
    }
    if r != [] {
      assert r[0] == s[k];
    }
  }

  /** The save button of the quest modal. A name that is empty after
      trimming changes nothing; a new quest is appended not completed; an
      edit renames the quest and clears its completion, keeping its stat. */
  function SaveQuest(quests: seq<Quest>, target: Target, rawName: string, stat: Stat): (r: Result<seq<Quest>, QuestError>)
    ensures Trim(rawName) == [] ==> r == Err(EmptyName)
    ensures r.Ok? && target.NewQuest? ==>
      && |r.value| == |quests| + 1
      && r.value[..|quests|] == quests
      && r.value[|quests|] == Quest(Trim(rawName), stat, false)
    ensures r.Ok? && target.Existing? ==>
      && |r.value| == |quests|
      && target.index < |quests|
      && r.value[target.index] == Quest(Trim(rawName), quests[target.index].stat, false)
      && forall j :: 0 <= j < |quests| && j != target.index ==> r.value[j] == quests[j]
    ensures r.Err? ==> Trim(rawName) == [] || (target.Existing? && target.index >= |quests|)
  {
    var name := Trim(rawName);
    if name == [] then Err(EmptyName)
    else match target
      case NewQuest => Ok(quests + [Quest(name, stat, false)])
      case Existing(i) =>
        if i < |quests| then Ok(quests[i := quests[i].(name := name, completed := false)])
        else Err(NotFound)
  }

  /** The add flow: the add button refuses to open the modal once the list
      holds MaxDailyQuests quests, so the cap is never exceeded. */
  function AddQuest(quests: seq<Quest>, rawName: string, stat: Stat): (r: Result<seq<Quest>, QuestError>)
    ensures |quests| >= MaxDailyQuests ==> r == Err(CapacityExceeded)
    ensures |quests| <= MaxDailyQuests && r.Ok? ==> |r.value| <= MaxDailyQuests
    ensures r.Ok? <==> |quests| < MaxDailyQuests && Trim(rawName) != []
    ensures r.Ok? ==> r.value == quests + [Quest(Trim(rawName), stat, false)]
  {
    if |quests| >= MaxDailyQuests then Err(CapacityExceeded)
    else SaveQuest(quests, NewQuest, rawName, stat)
  }

  /** The delete button: splices out the edited quest; a splice past the end
      removes nothing. Player stats are not touched. */
  function DeleteQuest(quests: seq<Quest>, target: Target): (r: seq<Quest>)
    ensures target.NewQuest? ==> r == quests
    ensures target.Existing? && target.index >= |quests| ==> r == quests
    ensures target.Existing? && target.index < |quests| ==>
      && |r| == |quests| - 1
      && (forall j :: 0 <= j < target.index ==> r[j] == quests[j])
      && (forall j :: target.index <= j < |r| ==> r[j] == quests[j + 1])
      && multiset(r) + multiset{quests[target.index]} == multiset(quests)
  {
    match target
    case NewQuest => quests
    case Existing(i) =>
      if i < |quests| then
        assert quests == quests[..i] + [quests[i]] + quests[i + 1..];
        quests[..i] + quests[i + 1..]
      else quests
  }

  predicate AllCompleted(quests: seq<Quest>) {
    forall i :: 0 <= i < |quests| ==> quests[i].completed
  }

  /** checkStreak: today joins the streak list when the list of quests is
      non-empty and all of them are done, and it is never added twice. */
  function CheckStreak(quests: seq<Quest>, days: seq<int>, today: int): (r: seq<int>)
    ensures r == days || (r == days + [today] && today !in days)
    ensures today in r <==> today in days || (|quests| > 0 && AllCompleted(quests))
    ensures forall d :: d != today ==> (d in r <==> d in days)
    ensures NoDup(days) ==> NoDup(r)
  {
    if |quests| > 0 && AllCompleted(quests) && today !in days then days + [today] else days
  }

  /** What completing a quest touches. */
  datatype Progress = Progress(player: Player, quests: seq<Quest>, streakDays: seq<int>)

  /** completeQuest: marks the quest done, credits +1 to its stat unless
      suppressed, awards 20 experience through gainXP (which drops it while
      suppressed) and runs the streak check. */
  function CompleteQuest(g: Progress, index: int, suppressed: bool, today: int): (r: Progress)
    ensures !(0 <= index < |g.quests|) || g.quests[index].completed ==> r == g
    ensures 0 <= index < |g.quests| && !g.quests[index].completed ==>
      var q := g.quests[index];
      && r.quests == g.quests[index := q.(completed := true)]
      && (forall s :: r.player.stats.Get(s) == g.player.stats.Get(s) + (if s == q.stat && !suppressed then 1 else 0))
      && (suppressed ==> r.player.level == g.player.level && r.player.xp == g.player.xp)
      && (!suppressed && g.player.level >= 1 ==> Total(r.player) == Total(g.player) + 20)
      && (Normalized(g.player) ==> Normalized(r.player))
      && r.streakDays == CheckStreak(r.quests, g.streakDays, today)
  {
    if !(0 <= index < |g.quests|) || g.quests[index].completed then g
    else
      var q := g.quests[index];
      var quests := g.quests[index := q.(completed := true)];
      var credited :=
        if suppressed then g.player
        else g.player.(stats := g.player.stats.Set(q.stat, g.player.stats.Get(q.stat) + 1));
      var player := GainXP(credited, 20, suppressed);
      Progress(player, quests, CheckStreak(quests, g.streakDays, today))
  }

  /** Completing the last open quest of a non-empty list records today. */
  lemma CompletingLastQuestRecordsDay(g: Progress, index: int, suppressed: bool, today: int)
    requires 0 <= index < |g.quests| && !g.quests[index].completed
    requires forall j :: 0 <= j < |g.quests| && j != index ==> g.quests[j].completed
    ensures today in CompleteQuest(g, index, suppressed, today).streakDays
  {
    var r := CompleteQuest(g, index, suppressed, today);
    assert AllCompleted(r.quests);
  }
}

=== FILE: streak.dfy ===
/** Streak statistics over the list of completed days (day numbers). The
    list is sorted first; the longest streak is the longest run of
    consecutive days and the current streak is the run that ends at the
    latest recorded day, kept only while today or yesterday is recorded. */
module Streak {
  import opened Common

  predicate Sorted(s: seq<int>) {
    forall i, j :: 0 <= i < j < |s| ==> s[i] <= s[j]
  }

  /** Putting a day in front of a sorted list that holds no earlier day. */
  lemma SortedCons(h: int, t: seq<int>)
    requires Sorted(t)
    requires forall k :: 0 <= k < |t| ==> h <= t[k]
    ensures Sorted([h] + t)
  {
    var r := [h] + t;
    forall i, j | 0 <= i < j < |r| ensures r[i] <= r[j] {
      if i > 0 {
        assert r[i] == t[i - 1] && r[j] == t[j - 1];
      }
    }
  }

  function Insert(x: int, s: seq<int>): (r: seq<int>)
    requires Sorted(s)
    ensures Sorted(r)
    ensures multiset(r) == multiset(s) + multiset{x}
    decreases |s|
  {
    if |s| == 0 || x <= s[0] then
      SortedCons(x, s);
      [x] + s
    else
      var rest := Insert(x, s[1..]);
      assert s == [s[0]] + s[1..];
      assert forall k :: 0 <= k < |rest| ==> s[0] <= rest[k] by {
        forall k | 0 <= k < |rest| ensures s[0] <= rest[k] {
          assert rest[k] in multiset(rest);
          if rest[k] != x {
            assert rest[k] in multiset(s[1..]);
            assert rest[k] in s[1..];
          }
        }
      }
      SortedCons(s[0], rest);
      [s[0]] + rest
  }

  /** The ascending order the source's sort() gives ISO date strings. */
  function SortDays(s: seq<int>): (r: seq<int>)
    ensures Sorted(r)
    ensures multiset(r) == multiset(s)
    decreases |s|
  {
    if |s| == 0 then []
    else
      assert s == [s[0]] + s[1..];
      Insert(s[0], SortDays(s[1..]))
  }

  /** The first day of a sorted list is its smallest. */
  lemma SortedFirst(a: seq<int>, x: int)
    requires Sorted(a) && x in multiset(a)
    ensures |a| > 0 && a[0] <= x
  {
    assert x in a;
  }

  lemma MultisetTail(a: seq<int>)
    requires |a| > 0
    ensures multiset(a[1..]) == multiset(a) - multiset{a[0]}
  {
    assert a == [a[0]] + a[1..];
  }

  lemma SortedTail(a: seq<int>)
    requires Sorted(a) && |a| > 0
    ensures Sorted(a[1..])
  {
    forall i, j | 0 <= i < j < |a| - 1
      ensures a[1..][i] <= a[1..][j]
    {
      assert a[1..][i] == a[i + 1] && a[1..][j] == a[j + 1];
    }
  }

  /** Two sorted lists with the same elements have the same length, the
      same first day, and tails that again are sorted with equal elements. */
  lemma SortedUniqueStep(a: seq<int>, b: seq<int>)
    requires Sorted(a) && Sorted(b)
    requires multiset(a) == multiset(b)
    ensures |a| == |b|
    ensures |a| > 0 ==>
      && a[0] == b[0]
      && Sorted(a[1..]) && Sorted(b[1..])
      && multiset(a[1..]) == multiset(b[1..])
  {
    assert |b| == |multiset(b)| == |a|;
    if |a| > 0 {
      SortedFirst(a, b[0]);
      SortedFirst(b, a[0]);
      MultisetTail(a);
      MultisetTail(b);
      SortedTail(a);
      SortedTail(b);
    }
  }

  /** Sorting has one answer: two sorted lists with the same elements agree. */
  lemma {:induction false} SortedUnique(a: seq<int>, b: seq<int>)
    requires Sorted(a) && Sorted(b)
    requires multiset(a) == multiset(b)
    ensures a == b
    decreases |a|
  {
    SortedUniqueStep(a, b);
    if |a| > 0 {
      SortedUnique(a[1..], b[1..]);
      assert a == [a[0]] + a[1..] && b == [b[0]] + b[1..];
    }
  }

  function DaySet(s: seq<int>): set<int> {
    set d | d in s
  }

  /** Every day lo, lo+1, ..., lo+len-1 is in `days`. */
  ghost predicate RunIn(days: set<int>, lo: int, len: int) {
    forall d :: lo <= d < lo + len ==> d in days
  }

  /** `m` is the length of the longest run of consecutive days in `days`. */
  ghost predicate IsLongestRun(days: set<int>, m: int) {
    && (exists lo :: RunIn(days, lo, m))
    && (forall lo, len :: RunIn(days, lo, len) ==> len <= m)
  }

  /** The last `c` entries of the sorted list are consecutive days ending
      at its last entry, and the entry before them does not continue them. */
  ghost predicate IsTrailingRun(s: seq<int>, c: int) {
    && 1 <= c <= |s|
    && (forall k :: |s| - c <= k < |s| ==> s[k] == s[|s| - 1] - (|s| - 1 - k))
    && (c < |s| ==> s[|s| - c - 1] != s[|s| - 1] - c)
  }

  /** What calculateStreakStats returns, stated without its loops. */
  ghost predicate StreakSpec(days: seq<int>, today: int, current: int, max: int) {
    if |days| == 0 then current == 0 && max == 0
    else
      && IsLongestRun(DaySet(days), max)
      && (if today in days || today - 1 in days then IsTrailingRun(SortDays(days), current)
          else current == 0)
  }

  /** Adding a day that is not below any recorded day: a run of the larger
      set either was already there or ends at the new day. */
  lemma RunAfterAdding(p: set<int>, x: int, lo: int, len: int)
    requires forall y :: y in p ==> y <= x
    requires RunIn(p + {x}, lo, len)
    ensures len <= 0 || RunIn(p, lo, len) || lo + len - 1 == x
  {
    if len > 0 && lo + len - 1 != x {
      assert lo + len - 1 in p + {x};
      forall d | lo <= d < lo + len ensures d in p {
        assert d in p + {x};
      }
    }
  }

  /** A run ending at `x` cannot be longer than `t` when day x - t is missing. */
  lemma RunEndingBefore(days: set<int>, x: int, t: int, lo: int, len: int)
    requires t >= 0
    requires x - t !in days
    requires RunIn(days, lo, len)
    requires lo + len - 1 == x
    ensures len <= t
  {
  }

  /** The first days of a run are recorded. */
  lemma RunHead(days: set<int>, lo: int, len: int)
    requires RunIn(days, lo, len)
    ensures len >= 1 ==> lo in days
    ensures len >= 2 ==> lo + 1 in days
    ensures len >= 3 ==> lo + 2 in days
    ensures len >= 4 ==> lo + 3 in days
  {
  }

  /** How one loop step of the longest-run scan moves `temp` and `max`
      when day `x` is read after day `prev`. */
  predicate ScanStep(prev: int, x: int, temp: int, max: int, temp': int, max': int) {
    if x - prev == 1 then temp' == temp + 1 && max' == max
    else if x - prev > 1 then temp' == 1 && max' == Max(max, temp)
    else temp' == temp && max' == max
  }

  /** One iteration of the longest-run loop, reading `x` after `prev`: a gap of one extends the run, a larger gap closes it (raising
      `max` if needed) and starts a new one, a repeated day changes nothing. */
  function ScanNext(prev: int, x: int, temp: nat, max: nat): (r: (nat, nat))
    ensures ScanStep(prev, x, temp, max, r.0, r.1)
    ensures r.0 <= temp + 1 && r.1 <= Max(max, temp)
    ensures temp >= 1 ==> r.0 >= 1
  {
    var diff := x - prev;
    if diff == 1 then (temp + 1, max)
    else if diff > 1 then (1, if temp > max then temp else max)
    else (temp, max)
  }

  /** What the longest-run scan knows after reading the days `seen`, the
      last of which is `last`: `temp` is the exact run ending at `last`, a
      run of length Max(max, temp) starts at `start`, and none is longer. */
  ghost predicate ScanInvariant(seen: set<int>, last: int, temp: int, max: int, start: int) {
    && temp >= 1
    && last in seen
    && (forall y :: y in seen ==> y <= last)
    && RunIn(seen, last - temp + 1, temp)
    && last - temp !in seen
    && RunIn(seen, start, Max(max, temp))
    && (forall lo, len :: RunIn(seen, lo, len) ==> len <= Max(max, temp))
  }

  /** The scan keeps `temp` as the exact run ending at the day just read. */
  lemma ScanStepRun(before: set<int>, prev: int, x: int, temp: int, max: int, temp': int, max': int)
    requires prev <= x && (forall y :: y in before ==> y <= prev) && prev in before
    requires temp >= 1 && RunIn(before, prev - temp + 1, temp) && prev - temp !in before
    requires ScanStep(prev, x, temp, max, temp', max')
    ensures temp' >= 1
    ensures RunIn(before + {x}, x - temp' + 1, temp')
    ensures x - temp' !in before + {x}
  {
  }

  /** The scan keeps a start day for the longest run so far. */
  lemma ScanStepStart(before: set<int>, prev: int, x: int, temp: int, max: int, start: int,
                      temp': int, max': int)
    requires prev <= x && prev in before
    requires temp >= 1 && RunIn(before, start, Max(max, temp))
    requires RunIn(before + {x}, x - temp' + 1, temp')
    requires ScanStep(prev, x, temp, max, temp', max')
    ensures RunIn(before + {x}, if temp' >= max' then x - temp' + 1 else start, Max(max', temp'))
  {
  }

  /** No run of the larger set is longer than the scan's bound. */
  lemma ScanStepBound(before: set<int>, prev: int, x: int, temp: int, max: int, temp': int, max': int)
    requires prev <= x && (forall y :: y in before ==> y <= prev)
    requires temp >= 1 && temp' >= 1 && x - temp' !in before + {x}
    requires forall lo, len :: RunIn(before, lo, len) ==> len <= Max(max, temp)
    requires ScanStep(prev, x, temp, max, temp', max')
    ensures forall lo, len :: RunIn(before + {x}, lo, len) ==> len <= Max(max', temp')
  {
    forall lo, len | RunIn(before + {x}, lo, len) ensures len <= Max(max', temp') {
      RunAfterAdding(before, x, lo, len);
      if len > 0 && !RunIn(before, lo, len) {
        RunEndingBefore(before + {x}, x, temp', lo, len);
      }
    }
  }

  /** One step of the scan preserves what it knows. */
  lemma ScanStepPreserves(before: set<int>, prev: int, x: int, temp: int, max: int, start: int,
                          temp': int, max': int)
    requires ScanInvariant(before, prev, temp, max, start)
    requires prev <= x
    requires ScanStep(prev, x, temp, max, temp', max')
    ensures ScanInvariant(before + {x}, x, temp', max', if temp' >= max' then x - temp' + 1 else start)
  {
    ScanStepRun(before, prev, x, temp, max, temp', max');
    ScanStepStart(before, prev, x, temp, max, start, temp', max');
    ScanStepBound(before, prev, x, temp, max, temp', max');
  }

  /** Reading one more entry of a sorted list adds its day to the days seen. */
  lemma PrefixStep(sorted: seq<int>, i: int)
    requires Sorted(sorted) && 1 <= i < |sorted|
    ensures DaySet(sorted[..i + 1]) == DaySet(sorted[..i]) + {sorted[i]}
    ensures sorted[i - 1] <= sorted[i]
  {
    assert sorted[..i + 1] == sorted[..i] + [sorted[i]];
  }

  /** Reading entry `i` of a sorted list advances the scan's knowledge from
      the first i entries to the first i + 1. */
  lemma ScanAdvance(sorted: seq<int>, i: int, temp: int, max: int, start: int, temp': int, max': int)
    requires Sorted(sorted) && 1 <= i < |sorted|
    requires ScanInvariant(DaySet(sorted[..i]), sorted[i - 1], temp, max, start)
    requires ScanStep(sorted[i - 1], sorted[i], temp, max, temp', max')
    ensures ScanInvariant(DaySet(sorted[..i + 1]), sorted[i], temp', max',
                          if temp' >= max' then sorted[i] - temp' + 1 else start)
  {
    PrefixStep(sorted, i);
    ScanStepPreserves(DaySet(sorted[..i]), sorted[i - 1], sorted[i], temp, max, start, temp', max');
  }

  /** The scan starts from the first day alone. */
  lemma ScanStart(days: set<int>, x: int)
    requires forall y :: y in days <==> y == x
    ensures ScanInvariant(days, x, 1, 0, x)
  {
    forall lo, len | RunIn(days, lo, len) ensures len <= 1 {
      if len > 1 {
        RunHead(days, lo, len);
      }
    }
  }

  /** Before the loop: the first entry alone has been read. */
  lemma ScanBegin(sorted: seq<int>)
    requires |sorted| > 0
    ensures ScanInvariant(DaySet(sorted[..1]), sorted[0], 1, 0, sorted[0])
  {
    assert sorted[..1] == [sorted[0]];
    ScanStart(DaySet(sorted[..1]), sorted[0]);
  }

  /** After the loop: closing the last run gives the longest run. */
  lemma ScanEnd(sorted: seq<int>, temp: int, max: int, start: int)
    requires |sorted| > 0
    requires ScanInvariant(DaySet(sorted[..|sorted|]), sorted[|sorted| - 1], temp, max, start)
    ensures IsLongestRun(DaySet(sorted), Max(max, temp))
  {
    assert sorted[..|sorted|] == sorted;
  }

  /** The first loop of calculateStreakStats: `temp` is the run ending at
      the entry just read; a repeated day neither extends nor breaks it, and
      `max` is only updated when a gap ends a run and once at the end. */
  method LongestRun(sorted: seq<int>) returns (max: nat)
    requires Sorted(sorted) && |sorted| > 0
    ensures IsLongestRun(DaySet(sorted), max)
    ensures 1 <= max <= |sorted|
  {
    var n := |sorted|;
    max := 0;
    var temp := 1;
    ghost var runStart := sorted[0];
    var i := 1;
    ScanBegin(sorted);
    while i < n
      invariant 1 <= i <= n
      invariant 1 <= temp <= i && max <= i
      invariant ScanInvariant(DaySet(sorted[..i]), sorted[i - 1], temp, max, runStart)
    {
      ghost var oldTemp, oldMax := temp, max;
      var next := ScanNext(sorted[i - 1], sorted[i], temp, max);
      temp, max := next.0, next.1;
      ScanAdvance(sorted, i, oldTemp, oldMax, runStart, temp, max);
      if temp >= max {
        runStart := sorted[i] - temp + 1;
      }
      i := i + 1;
    }
    ScanEnd(sorted, temp, max, runStart);
    if temp > max {
      max := temp;
    }
  }

  /** The second loop of calculateStreakStats: walk back from the last entry
      while each earlier entry is exactly one day before. */
  method TrailingRun(sorted: seq<int>) returns (current: nat)
    requires |sorted| > 0
    ensures IsTrailingRun(sorted, current)
  {
    var n := |sorted|;
    current := 1;
    var last := sorted[n - 1];
    var j := n - 2;
    while j >= 0 && last - sorted[j] == 1
      invariant -1 <= j <= n - 2
      invariant current == n - 1 - j
      invariant last == sorted[n - 1] - (current - 1)
      invariant forall k :: n - current <= k < n ==> sorted[k] == sorted[n - 1] - (n - 1 - k)
    {
      current := current + 1;
      last := sorted[j];
      j := j - 1;
    }
  }

  /** calculateStreakStats. */
  method CalculateStreakStats(days: seq<int>, today: int) returns (current: nat, max: nat)
    ensures StreakSpec(days, today, current, max)
    ensures |days| > 0 ==> 1 <= max <= |days|
    ensures current <= max
  {
    if |days| == 0 {
      return 0, 0;
    }
    var sorted := SortDays(days);
    var n := |sorted|;
    assert n == |multiset(sorted)| == |multiset(days)| == |days|;
    max := LongestRun(sorted);
    assert forall d :: d in sorted <==> d in multiset(days);
    assert DaySet(sorted) == DaySet(days);
    if today in days || today - 1 in days {
      current := TrailingRun(sorted);
      forall d | sorted[n - 1] - current + 1 <= d < sorted[n - 1] + 1 ensures d in DaySet(days) {
        assert sorted[n - 1 - (sorted[n - 1] - d)] == d;
      }
      assert RunIn(DaySet(days), sorted[n - 1] - current + 1, current);
    } else {
      current := 0;
    }
  }

  /** The statistics are pinned down by the specification. */
  lemma StreakSpecDeterministic(days: seq<int>, today: int, c1: int, m1: int, c2: int, m2: int)
    requires StreakSpec(days, today, c1, m1) && StreakSpec(days, today, c2, m2)
    ensures c1 == c2 && m1 == m2
  {
    if |days| > 0 {
      var lo1 :| RunIn(DaySet(days), lo1, m1);
      var lo2 :| RunIn(DaySet(days), lo2, m2);
      assert m1 <= m2 && m2 <= m1;
      if today in days || today - 1 in days {
      }
    }
  }

  /** Reordering the recorded days does not change the statistics. */
  lemma StreakSpecOrderIndependent(a: seq<int>, b: seq<int>, today: int, current: int, max: int)
    requires multiset(a) == multiset(b)
    ensures StreakSpec(a, today, current, max) <==> StreakSpec(b, today, current, max)
  {
    SameDays(a, b);
  }

  /** Two lists with the same elements have the same length, the same
      members, the same day set and the same sorted form. */
  lemma SameDays(a: seq<int>, b: seq<int>)
    requires multiset(a) == multiset(b)
    ensures |a| == |b|
    ensures forall d :: d in a <==> d in b
    ensures DaySet(a) == DaySet(b)
    ensures SortDays(a) == SortDays(b)
  {
    SortedUnique(SortDays(a), SortDays(b));
    assert forall d :: d in a <==> d in multiset(b);
    assert |a| == |multiset(a)| == |b|;
  }

  lemma ExampleSorted(d: int)
    ensures SortDays([d, d + 1, d + 2, d + 5]) == [d, d + 1, d + 2, d + 5]
  {
    var s := [d, d + 1, d + 2, d + 5];
    assert Sorted(s);
    SortedUnique(SortDays(s), s);
  }

  lemma ExampleRuns(days: set<int>, d: int, lo: int, len: int)
    requires forall x :: x in days <==> x == d || x == d + 1 || x == d + 2 || x == d + 5
    requires RunIn(days, lo, len)
    ensures len <= 3
  {
    if len > 3 {
      RunHead(days, lo, len);
    }
  }

  lemma ExampleTrailing(s: seq<int>, d: int, c: int)
    requires s == [d, d + 1, d + 2, d + 5]
    requires IsTrailingRun(s, c)
    ensures c == 1
  {
    assert s[2] == d + 2 && s[3] == d + 5;
  }

  lemma ExampleDays(days: seq<int>, d: int)
    requires days == [d, d + 1, d + 2, d + 5]
    ensures forall x :: x in DaySet(days) <==> x == d || x == d + 1 || x == d + 2 || x == d + 5
  {
  }

  /** Days D, D+1, D+2 and D+5 seen on day D+5: longest 3, current 1. */
  lemma ExampleSpec(d: int, current: int, max: int)
    requires StreakSpec([d, d + 1, d + 2, d + 5], d + 5, current, max)
    ensures max == 3 && current == 1
  {
    var days := [d, d + 1, d + 2, d + 5];
    var lo :| RunIn(DaySet(days), lo, max);
    ExampleDays(days, d);
    ExampleRuns(DaySet(days), d, lo, max);
    assert RunIn(DaySet(days), d, 3);
    ExampleSorted(d);
    ExampleTrailing(SortDays(days), d, current);
  }

  /** calculateStreakStats on days D, D+1, D+2, D+5 seen on day D+5. */
  method StreakExample(d: int) returns (current: nat, max: nat)
    ensures max == 3 && current == 1
  {
    current, max := CalculateStreakStats([d, d + 1, d + 2, d + 5], d + 5);
    ExampleSpec(d, current, max);
  }
}

=== FILE: timer.dfy ===
/** The once-a-day rollover (penalty for open quests, completion reset,
    interference escalation to suppression), the midnight countdown, the
    Pomodoro timer and the once-a-day reminder markers. */
module Timer {
  import opened Common
  import opened Core
  import opened Daily
  import opened Ui

  /** JavaScript's `%`: the remainder takes the sign of the dividend. */
  function JsRem(a: int, b: int): (r: int)
    requires b > 0
    ensures a >= 0 ==> 0 <= r < b && a == a / b * b + r
    ensures a < 0 ==> -b < r <= 0 && a == -((-a) / b * b) + r
  {
    if a >= 0 then a % b else -((-a) % b)
  }

  /** updateTimer: hours, minutes and seconds left until midnight, from the
      difference in milliseconds (Math.floor is division rounding down). */
  function Countdown(diff: int): (r: (int, int, int))
    ensures diff >= 0 ==> r.0 >= 0 && 0 <= r.1 < 60 && 0 <= r.2 < 60
    ensures diff >= 0 ==>
      var shown := r.0 * 3600000 + r.1 * 60000 + r.2 * 1000;
      shown <= diff < shown + 1000
    ensures 0 <= diff <= 86400000 ==> r.0 <= 24
  {
    var h := diff / 3600000;
    var m := JsRem(diff, 3600000) / 60000;
    var s := JsRem(diff, 60000) / 1000;
    if diff >= 0 then
      assert diff == h * 3600000 + diff % 3600000;
      assert diff % 3600000 == m * 60000 + diff % 60000 by {
        assert diff % 3600000 == (diff % 3600000) / 60000 * 60000 + (diff % 3600000) % 60000;
        assert (diff % 3600000) % 60000 == diff % 60000 by {
          assert diff == (h * 60) * 60000 + diff % 3600000;
        }
      }
      (h, m, s)
    else (h, m, s)
  }

  const PomodoroSeconds: int := 35 * 60

  datatype Pomodoro = Pomodoro(time: int, running: bool)

  function StartPomodoro(t: Pomodoro): (r: Pomodoro)
    ensures r.running && r.time == t.time
  {
    if t.running then t else t.(running := true)
  }

  /** The reset button: a full session, stopped. */
  function ResetPomodoro(t: Pomodoro): (r: Pomodoro)
    ensures r.time == PomodoroSeconds && !r.running
  {
    Pomodoro(PomodoroSeconds, false)
  }

  /** The timer half of one interval tick: count down one second; reaching
      zero stops the timer and rearms the full session. */
  function TickTimer(t: Pomodoro): (r: Pomodoro)
    ensures t.time - 1 <= 0 ==> r == ResetPomodoro(t)
    ensures 1 < t.time ==> r == t.(time := t.time - 1)
  {
    var time := t.time - 1;
    if time <= 0 then Pomodoro(PomodoroSeconds, false) else t.(time := time)
  }

  /** One interval tick: the tick that reaches zero awards 5 experience. */
  function PomodoroTick(t: Pomodoro, p: Player, suppressed: bool): (r: (Pomodoro, Player))
    ensures r.0 == TickTimer(t)
    ensures t.time > 1 ==> r.1 == p
    ensures t.time <= 1 && !suppressed && p.level >= 1 ==> Total(r.1) == Total(p) + 5
    ensures t.time <= 1 && suppressed ==> r.1 == p
  {
    var next := TickTimer(t);
    if t.time - 1 <= 0 then (next, GainXP(p, 5, suppressed)) else (next, p)
  }

  function RunTicks(t: Pomodoro, n: nat): Pomodoro
    decreases n
  {
    if n == 0 then t else RunTicks(TickTimer(t), n - 1)
  }

  /** A running session counts down one second per tick and finishes on
      exactly its `time`-th tick, stopped and rearmed. */
  lemma {:induction false} SessionLength(t: Pomodoro, n: nat)
    requires 1 <= t.time
    ensures n < t.time ==> RunTicks(t, n) == t.(time := t.time - n)
    ensures n == t.time ==> RunTicks(t, n) == ResetPomodoro(t)
    decreases n
  {
    if n > 0 {
      if t.time == 1 {
        assert RunTicks(t, n) == RunTicks(ResetPomodoro(t), n - 1);
        if n == 1 {
          assert RunTicks(ResetPomodoro(t), 0) == ResetPomodoro(t);
        }
      } else {
        SessionLength(TickTimer(t), n - 1);
      }
    }
  }

  /** updatePomoDisplay: minutes and seconds of the time left. */
  function PomodoroClock(time: int): (r: (int, int))
    ensures time >= 0 ==> r.0 * 60 + r.1 == time && 0 <= r.1 < 60
  {
    (time / 60, JsRem(time, 60))
  }

  datatype Notice = QuestsPending | PenaltyImminent

  /** The dates on which the 18:00 and 22:00 reminders were last handled. */
  datatype Markers = Markers(sixPm: Option<int>, tenPm: Option<int>)

  /** hasIncompleteQuests: some quest is open, which is exactly the failure
      of the all-done test the streak uses, and needs a non-empty list. */
  function HasIncompleteQuests(quests: seq<Quest>): (r: bool)
    ensures r <==> !AllCompleted(quests)
    ensures r ==> |quests| > 0
  {
    exists i :: 0 <= i < |quests| && !quests[i].completed
  }

  /** Right after the daily reset, a reminder has something to report
      exactly when there is any quest at all. */
  lemma ResetLeavesQuestsOpen(quests: seq<Quest>)
    ensures HasIncompleteQuests(ResetDailyCompletion(quests)) <==> |quests| > 0
  {
    if |quests| > 0 {
      assert !ResetDailyCompletion(quests)[0].completed;
    }
  }

  /** checkScheduledNotifications: each reminder is considered once per
      day, from its hour on, and only sent while a quest is open. */
  function CheckScheduledNotifications(m: Markers, hour: int, today: int, quests: seq<Quest>): (r: (Markers, seq<Notice>))
    ensures QuestsPending in r.1 <==> hour >= 18 && m.sixPm != Some(today) && HasIncompleteQuests(quests)
    ensures PenaltyImminent in r.1 <==> hour >= 22 && m.tenPm != Some(today) && HasIncompleteQuests(quests)
    ensures NoDup(r.1)
    ensures r.0.sixPm == (if hour >= 18 then Some(today) else m.sixPm)
    ensures r.0.tenPm == (if hour >= 22 then Some(today) else m.tenPm)
  {
    var first := if hour >= 18 && m.sixPm != Some(today) && HasIncompleteQuests(quests) then [QuestsPending] else [];
    var six := if hour >= 18 && m.sixPm != Some(today) then Some(today) else m.sixPm;
    var second := if hour >= 22 && m.tenPm != Some(today) && HasIncompleteQuests(quests) then [PenaltyImminent] else [];
    var ten := if hour >= 22 && m.tenPm != Some(today) then Some(today) else m.tenPm;
    (Markers(six, ten), first + second)
  }

  /** No reminder is sent twice on the same day. */
  lemma RemindersOncePerDay(m: Markers, h1: int, h2: int, today: int, q1: seq<Quest>, q2: seq<Quest>)
    ensures var first := CheckScheduledNotifications(m, h1, today, q1);
      var second := CheckScheduledNotifications(first.0, h2, today, q2);
      forall n :: n in first.1 ==> n !in second.1
  {
  }

  /** The quests whose stat the penalty may lower: those not completed. */
  function MissedCount(quests: seq<Quest>, s: Stat): nat
    decreases |quests|
  {
    if |quests| == 0 then 0
    else (if !quests[0].completed && quests[0].stat == s then 1 else 0) + MissedCount(quests[1..], s)
  }

  function Missed(quests: seq<Quest>): nat
    decreases |quests|
  {
    if |quests| == 0 then 0
    else (if quests[0].completed then 0 else 1) + Missed(quests[1..])
  }

  datatype Penalty = Penalty(player: Player, applied: bool)

  /** The stat a run of penalties leaves: it counts down to 0 and stops
      there; a stat that is already 0 or below is left alone. */
  function Penalised(stat: int, missed: nat): int {
    if stat <= 0 then stat else Max(0, stat - missed)
  }

  /** Penalising a stat twice is penalising it once by the sum. */
  lemma PenalisedCompose(stat: int, a: nat, b: nat)
    ensures Penalised(Penalised(stat, a), b) == Penalised(stat, a + b)
  {
  }

  /** The penalty for one open quest: its stat drops by one if positive,
      then gainXP(-10). */
  function PenaltyStep(p: Player, stat: Stat, suppressed: bool): (r: Penalty)
    ensures forall s :: r.player.stats.Get(s) == (if s == stat then Penalised(p.stats.Get(s), 1) else p.stats.Get(s))
    ensures p.level >= 1 ==> r.player.level >= 1 && Total(r.player) == Total(p) - 10
    ensures Normalized(p) ==> Normalized(r.player)
    ensures r.applied <==> p.stats.Get(stat) > 0
  {
    var lowered := p.stats.Get(stat) > 0;
    var p1 := if lowered then p.(stats := p.stats.Set(stat, p.stats.Get(stat) - 1)) else p;
    Penalty(GainXP(p1, -10, suppressed), lowered)
  }

  /** The stats after the first open quest's step and the rest's penalty are
      the stats penalised by all open quests. */
  lemma PenaltyStatsCompose(p: Player, quests: seq<Quest>, mid: Player, fin: Player)
    requires |quests| > 0 && !quests[0].completed
    requires forall s :: mid.stats.Get(s) == (if s == quests[0].stat then Penalised(p.stats.Get(s), 1) else p.stats.Get(s))
    requires forall s :: fin.stats.Get(s) == Penalised(mid.stats.Get(s), MissedCount(quests[1..], s))
    ensures forall s :: fin.stats.Get(s) == Penalised(p.stats.Get(s), MissedCount(quests, s))
  {
    forall s
      ensures fin.stats.Get(s) == Penalised(p.stats.Get(s), MissedCount(quests, s))
    {
      if s == quests[0].stat {
        PenalisedCompose(p.stats.Get(s), 1, MissedCount(quests[1..], s));
      }
    }
  }

  /** Some stat dropped, in the first step or in the rest, exactly when some
      positive stat has an open quest. */
  lemma PenaltyAppliedCompose(p: Player, quests: seq<Quest>, mid: Player, first: bool, later: bool)
    requires |quests| > 0 && !quests[0].completed
    requires forall s :: mid.stats.Get(s) == (if s == quests[0].stat then Penalised(p.stats.Get(s), 1) else p.stats.Get(s))
    requires first <==> p.stats.Get(quests[0].stat) > 0
    requires later <==> exists s :: mid.stats.Get(s) > 0 && MissedCount(quests[1..], s) > 0
    ensures (first || later) <==> exists s :: p.stats.Get(s) > 0 && MissedCount(quests, s) > 0
  {
    if later {
      var s :| mid.stats.Get(s) > 0 && MissedCount(quests[1..], s) > 0;
      assert p.stats.Get(s) > 0 && MissedCount(quests, s) > 0;
    }
    if exists s :: p.stats.Get(s) > 0 && MissedCount(quests, s) > 0 {
      var s :| p.stats.Get(s) > 0 && MissedCount(quests, s) > 0;
      if s != quests[0].stat {
        assert mid.stats.Get(s) > 0 && MissedCount(quests[1..], s) > 0;
      }
    }
  }

  /** applyDailyPenalty: for every open quest in order, its stat drops by
      one if it is positive, and gainXP(-10) is applied (a negative amount,
      so suppression does not block it). `applied` records whether some
      stat dropped. */
  function ApplyDailyPenalty(p: Player, quests: seq<Quest>, suppressed: bool): (r: Penalty)
    ensures forall s :: r.player.stats.Get(s) == Penalised(p.stats.Get(s), MissedCount(quests, s))
    ensures p.level >= 1 ==> r.player.level >= 1 && Total(r.player) == Total(p) - 10 * Missed(quests)
    ensures Normalized(p) ==> Normalized(r.player)
    ensures r.applied <==> exists s :: p.stats.Get(s) > 0 && MissedCount(quests, s) > 0
    ensures Missed(quests) == 0 ==> r.player == p
    decreases |quests|
  {
    if |quests| == 0 then Penalty(p, false)
    else if quests[0].completed then ApplyDailyPenalty(p, quests[1..], suppressed)
    else
      var step := PenaltyStep(p, quests[0].stat, suppressed);
      var rest := ApplyDailyPenalty(step.player, quests[1..], suppressed);
      PenaltyStatsCompose(p, quests, step.player, rest.player);
      PenaltyAppliedCompose(p, quests, step.player, step.applied, rest.applied);
      Penalty(rest.player, step.applied || rest.applied)
  }

  /** The penalty's experience loss is a single gainXP of -10 per open quest. */
  lemma PenaltyIsOneExperienceChange(p: Player, quests: seq<Quest>, suppressed: bool)
    requires Normalized(p)
    ensures var r := ApplyDailyPenalty(p, quests, suppressed).player;
      var g := GainXP(p, -10 * Missed(quests), suppressed);
      r.level == g.level && r.xp == g.xp
  {
    var r := ApplyDailyPenalty(p, quests, suppressed).player;
    var g := GainXP(p, -10 * Missed(quests), suppressed);
    NormalFormUnique(r, g);
  }

  /** resetDailyCompletion: every quest is open again; names, stats and
      order are kept. */
  function ResetDailyCompletion(quests: seq<Quest>): (r: seq<Quest>)
    ensures |r| == |quests|
    ensures forall i :: 0 <= i < |r| ==> !r[i].completed && r[i].name == quests[i].name && r[i].stat == quests[i].stat
    ensures Missed(r) == |r|
  {
    var r := seq(|quests|, i requires 0 <= i < |quests| => quests[i].(completed := false));
    AllOpenMissed(r);
    r
  }

  lemma {:induction false} AllOpenMissed(quests: seq<Quest>)
    requires forall i :: 0 <= i < |quests| ==> !quests[i].completed
    ensures Missed(quests) == |quests|
    decreases |quests|
  {
    if |quests| > 0 {
      AllOpenMissed(quests[1..]);
    }
  }

  /** The counting loop of checkForSuppression from day today - i back:
      consecutive days with a non-empty log entry, never beyond today - 7. */
  function InterferenceRunFrom(log: InterferenceLog, today: int, i: int): (n: nat)
    requires 1 <= i <= 8
    ensures n <= 8 - i
    ensures forall d :: today - (i + n) < d <= today - i ==> HasInterference(log, d)
    ensures i + n <= 7 ==> !HasInterference(log, today - (i + n))
    decreases 8 - i
  {
    if i > 7 || !HasInterference(log, today - i) then 0
    else 1 + InterferenceRunFrom(log, today, i + 1)
  }

  /** consecutiveInterference: interfered days in a row, from yesterday back,
      at most 7, stopping at the first day without interference. */
  function ConsecutiveInterference(log: InterferenceLog, today: int): (n: nat)
    ensures n <= 7
    ensures forall d :: today - n <= d < today ==> HasInterference(log, d)
    ensures n < 7 ==> !HasInterference(log, today - n - 1)
  {
    InterferenceRunFrom(log, today, 1)
  }

  /** checkForSuppression: suppression is set for today exactly when each of
      the seven previous days has interference; otherwise it is untouched. */
  function CheckForSuppression(log: InterferenceLog, today: int, suppression: Option<int>): (r: Option<int>)
    ensures (forall d :: today - 7 <= d < today ==> HasInterference(log, d)) ==> r == Some(today)
    ensures !(forall d :: today - 7 <= d < today ==> HasInterference(log, d)) ==> r == suppression
  {
    if ConsecutiveInterference(log, today) >= 7 then Some(today) else suppression
  }

  /** Everything the rollover reads or writes. */
  datatype AppState = AppState(
    player: Player,
    quests: seq<Quest>,
    log: InterferenceLog,
    suppression: Option<int>,
    lastDay: Option<int>,
    lastPenalty: Option<int>)

  /** runDailySystemOnce: a stale suppression date is always cleared; the
      penalty, the reset and the escalation check run only when the
      recorded last day is not today, which then becomes the last day. */
  function RunDailySystemOnce(st: AppState, today: int): (r: AppState)
    ensures r.lastDay == Some(today)
    ensures r.suppression == None || r.suppression == Some(today)
    ensures st.suppression == Some(today) ==> r.suppression == Some(today)
    ensures r.log == st.log
    ensures Normalized(st.player) ==> Normalized(r.player)
    ensures st.lastDay != Some(today) ==>
      r.lastPenalty == (if exists s :: st.player.stats.Get(s) > 0 && MissedCount(st.quests, s) > 0
                        then Some(today) else st.lastPenalty)
    ensures st.lastDay == Some(today) ==>
      r == st.(suppression := if st.suppression == Some(today) then st.suppression else None)
    ensures st.lastDay != Some(today) ==>
      && |r.quests| == |st.quests|
      && (forall i :: 0 <= i < |r.quests| ==>
            !r.quests[i].completed && r.quests[i].name == st.quests[i].name && r.quests[i].stat == st.quests[i].stat)
      && (forall s :: r.player.stats.Get(s) == Penalised(st.player.stats.Get(s), MissedCount(st.quests, s)))
      && (st.player.level >= 1 ==> Total(r.player) == Total(st.player) - 10 * Missed(st.quests))
      && (r.suppression == Some(today) <==>
            st.suppression == Some(today) || forall d :: today - 7 <= d < today ==> HasInterference(st.log, d))
  {
    var sup := if st.suppression.Some? && st.suppression.value != today then None else st.suppression;
    if st.lastDay == Some(today) then st.(suppression := sup)
    else
      var pen := ApplyDailyPenalty(st.player, st.quests, IsSuppressed(sup, today));
      st.(player := pen.player,
          quests := ResetDailyCompletion(st.quests),
          suppression := CheckForSuppression(st.log, today, sup),
          lastDay := Some(today),
          lastPenalty := if pen.applied then Some(today) else st.lastPenalty)
  }

  /** A second run on the same day changes nothing. */
  lemma RunDailySystemOnceIdempotent(st: AppState, today: int)
    ensures RunDailySystemOnce(RunDailySystemOnce(st, today), today) == RunDailySystemOnce(st, today)
  {
  }

  /** Seven interfered days in a row before a new day suppress that day. */
  lemma SevenDaysSuppress(st: AppState, today: int)
    requires st.lastDay != Some(today)
    requires forall d :: today - 7 <= d < today ==> HasInterference(st.log, d)
    ensures RunDailySystemOnce(st, today).suppression == Some(today)
    ensures IsSuppressed(RunDailySystemOnce(st, today).suppression, today)
  {
  }

  /** Suppression lasts one day when no interference is logged on it. */
  lemma SuppressionEndsNextDay(st: AppState, today: int)
    requires st.suppression == Some(today) && st.lastDay == Some(today)
    requires !HasInterference(st.log, today)
    ensures RunDailySystemOnce(st, today + 1).suppression == None
  {
    assert !HasInterference(st.log, (today + 1) - 1);
  }

  /** Suppression is renewed when interference was also logged on the
      suppressed day and the six days before it. */
  lemma SuppressionRenews(st: AppState, today: int)
    requires st.suppression == Some(today) && st.lastDay == Some(today)
    requires forall d :: today - 6 <= d <= today ==> HasInterference(st.log, d)
    ensures RunDailySystemOnce(st, today + 1).suppression == Some(today + 1)
  {
  }
}

=== FILE: ui.dfy ===
/** The interference log and the status it drives, the level tiers and
    ranks, and the capped particle list. */
module Ui {
  import opened Common
  import Bands

  type Tag = string

  /** Day -> interference tags logged that day. */
  type InterferenceLog = map<int, seq<Tag>>

  /** The tags of `types` that logging adds to `entry`, by position: a tag is
      kept when it is neither already logged nor met earlier in `types`. */
  function NewTags(entry: seq<Tag>, types: seq<Tag>): seq<Tag>
    decreases |types|
  {
    if |types| == 0 then []
    else
      var k := |types| - 1;
      NewTags(entry, types[..k]) + (if types[k] !in entry && types[k] !in types[..k] then [types[k]] else [])
  }

  /** The tags added are exactly the new ones, each once. */
  lemma {:induction false} NewTagsFacts(entry: seq<Tag>, types: seq<Tag>)
    ensures forall x :: x in NewTags(entry, types) <==> x in types && x !in entry
    ensures NoDup(NewTags(entry, types))
    decreases |types|
  {
    if |types| > 0 {
      var k := |types| - 1;
      NewTagsFacts(entry, types[..k]);
      assert types == types[..k] + [types[k]];
    }
  }

  /** Nothing is new when every tag is already logged. */
  lemma {:induction false} NoNewTags(entry: seq<Tag>, types: seq<Tag>)
    requires forall x :: x in types ==> x in entry
    ensures NewTags(entry, types) == []
    decreases |types|
  {
    if |types| > 0 {
      var k := |types| - 1;
      assert types[k] in types;
      NoNewTags(entry, types[..k]);
    }
  }

  /** The forEach of logInterference: each type is pushed unless the entry
      already includes it. */
  function AddTags(entry: seq<Tag>, types: seq<Tag>): (r: seq<Tag>)
    ensures forall x :: x in r <==> x in entry || x in types
    ensures r == entry + NewTags(entry, types)
    decreases |types|
  {
    if |types| == 0 then entry
    else
      var k := |types| - 1;
      var acc := AddTags(entry, types[..k]);
      assert types == types[..k] + [types[k]];
      if types[k] in acc then acc else acc + [types[k]]
  }

  function EntryOn(log: InterferenceLog, day: int): seq<Tag> {
    if day in log then log[day] else []
  }

  /** logInterference: today's tags become the old tags followed by the new
      types, first occurrences only; other days are untouched. */
  function LogInterference(log: InterferenceLog, today: int, types: seq<Tag>): (r: InterferenceLog)
    ensures today in r
    ensures r[today] == EntryOn(log, today) + NewTags(EntryOn(log, today), types)
    ensures forall x :: x in r[today] <==> x in EntryOn(log, today) || x in types
    ensures NoDup(EntryOn(log, today)) ==> NoDup(r[today])
    ensures forall d :: d != today ==> (d in r <==> d in log)
    ensures forall d :: d != today && d in log ==> r[d] == log[d]
  {
    var entry := EntryOn(log, today);
    var tags := AddTags(entry, types);
    assert NoDup(entry) ==> NoDup(tags) by {
      if NoDup(entry) {
        AppendNewTagsNoDup(entry, types);
      }
    }
    log[today := tags]
  }

  /** Appending only tags not already present, each once, keeps a
      duplicate-free entry duplicate-free. */
  lemma AppendNewTagsNoDup(entry: seq<Tag>, types: seq<Tag>)
    requires NoDup(entry)
    ensures NoDup(entry + NewTags(entry, types))
  {
    var added := NewTags(entry, types);
    var tags := entry + added;
    NewTagsFacts(entry, types);
    forall i, j | 0 <= i < j < |tags| ensures tags[i] != tags[j] {
      if j < |entry| {
        assert tags[i] == entry[i] && tags[j] == entry[j];
      } else if i < |entry| {
        assert tags[i] == entry[i] && tags[i] in entry;
        assert tags[j] == added[j - |entry|] && tags[j] in added;
      } else {
        assert tags[i] == added[i - |entry|];
        assert tags[j] == added[j - |entry|];
      }
    }
  }

  /** Logging the same types twice is the same as logging them once. */
  lemma LogInterferenceIdempotent(log: InterferenceLog, today: int, types: seq<Tag>)
    ensures LogInterference(LogInterference(log, today, types), today, types) == LogInterference(log, today, types)
  {
    var once := LogInterference(log, today, types);
    NoNewTags(once[today], types);
    assert EntryOn(once, today) == once[today];
    var twice := LogInterference(once, today, types);
    assert twice[today] == once[today] + [] == once[today];
    assert twice.Keys == once.Keys;
  }

  /** hasInterferenceToday, for any day: a non-empty entry is logged. */
  predicate HasInterference(log: InterferenceLog, day: int) {
    day in log && |log[day]| > 0
  }

  /** After logging at least one type, the day counts as interfered, and no
      other day changes its standing. */
  lemma LoggingMarksDay(log: InterferenceLog, today: int, types: seq<Tag>)
    requires |types| > 0
    ensures HasInterference(LogInterference(log, today, types), today)
    ensures forall d :: d != today ==>
      (HasInterference(LogInterference(log, today, types), d) <==> HasInterference(log, d))
  {
    var r := LogInterference(log, today, types);
    assert types[0] in r[today];
  }

  datatype Status = Stable | Unstable | Suppression

  /** The badge of updateSystemMessage: suppression first, then interference. */
  function SystemStatus(suppressed: bool, interferenceToday: bool): (s: Status)
    ensures s == Suppression <==> suppressed
    ensures s == Unstable <==> !suppressed && interferenceToday
    ensures s == Stable <==> !suppressed && !interferenceToday
  {
    if suppressed then Suppression
    else if interferenceToday then Unstable
    else Stable
  }

  /** The status read from the stored state: logging interference while not
      suppressed turns it Unstable, and suppression overrides everything. */
  lemma StatusAfterLogging(log: InterferenceLog, suppression: Option<int>, today: int, types: seq<Tag>)
    requires |types| > 0
    ensures SystemStatus(suppression == Some(today), HasInterference(LogInterference(log, today, types), today))
      == (if suppression == Some(today) then Suppression else Unstable)
  {
    LoggingMarksDay(log, today, types);
  }

  const TierThresholds: seq<int> := [100, 150]

  /** getTier: 1 below level 100, 2 below 150, 3 from 150 on. */
  function GetTier(level: int): (t: int)
    ensures t == 1 + Bands.Reached(TierThresholds, level)
    ensures 1 <= t <= 3
  {
    var t := if level >= 150 then 3 else if level >= 100 then 2 else 1;
    Bands.BandIndex(TierThresholds, level, t - 1);
    t
  }

  datatype Rank = E | D | C | B | A | S | SS | SSS {
    function Index(): nat {
      match this
      case E => 0
      case D => 1
      case C => 2
      case B => 3
      case A => 4
      case S => 5
      case SS => 6
      case SSS => 7
    }
  }

  const RankThresholds: seq<int> := [20, 40, 60, 80, 100, 120, 150]

  /** The rank shown by updateUI: one band per threshold reached. */
  function GetRank(level: int): (r: Rank)
    ensures r.Index() == Bands.Reached(RankThresholds, level)
  {
    var r :=
      if level >= 150 then SSS
      else if level >= 120 then SS
      else if level >= 100 then S
      else if level >= 80 then A
      else if level >= 60 then B
      else if level >= 40 then C
      else if level >= 20 then D
      else E;
    Bands.BandIndex(RankThresholds, level, r.Index());
    r
  }

  /** The body classes updateUI sets within tier 1 (below level 100). */
  datatype SubTier = Tier1a | Tier1b | Tier1c {
    function Index(): nat {
      match this
      case Tier1a => 0
      case Tier1b => 1
      case Tier1c => 2
    }
  }

  const SubTierThresholds: seq<int> := [50, 71]

  /** A sub-tier exists exactly in tier 1, banded at levels 50 and 71. */
  function GetSubTier(level: int): (r: Option<SubTier>)
    ensures r.Some? <==> GetTier(level) == 1
    ensures r.Some? ==> r.value.Index() == Bands.Reached(SubTierThresholds, level)
  {
    if GetTier(level) != 1 then None
    else
      var sub := if level >= 71 then Tier1c else if level >= 50 then Tier1b else Tier1a;
      Bands.BandIndex(SubTierThresholds, level, sub.Index());
      Some(sub)
  }

  /** Tiers and ranks never drop as the level grows. */
  lemma BandsMonotone(a: int, b: int)
    requires a <= b
    ensures GetTier(a) <= GetTier(b)
    ensures GetRank(a).Index() <= GetRank(b).Index()
  {
    Bands.ReachedMonotone(TierThresholds, a, b);
    Bands.ReachedMonotone(RankThresholds, a, b);
  }

  const ParticleCap: nat := 25

  /** A live background particle: when it was created and how long it lives (ms). */
  datatype Particle = Particle(createdAt: int, duration: int)

  /** Particle lifetime per tier. */
  function TierDuration(tier: int): int {
    if tier == 1 then 28000 else if tier == 2 then 38000 else 50000
  }

  /** spawnParticle: nothing happens at the cap, otherwise one particle with
      the tier's lifetime is appended. */
  function SpawnParticle(ps: seq<Particle>, level: int, now: int): (r: seq<Particle>)
    ensures |ps| >= ParticleCap ==> r == ps
    ensures |ps| < ParticleCap ==> r == ps + [Particle(now, TierDuration(GetTier(level)))]
    ensures |ps| <= ParticleCap ==> |r| <= ParticleCap
  {
    if |ps| >= ParticleCap then ps
    else ps + [Particle(now, TierDuration(GetTier(level)))]
  }

  predicate Expired(p: Particle, timestamp: int) {
    timestamp - p.createdAt >= p.duration
  }

  /** The particles still alive at `timestamp`, in their order. */
  function Alive(ps: seq<Particle>, timestamp: int): (r: seq<Particle>)
    ensures |r| <= |ps|
    ensures forall p :: p in r <==> p in ps && !Expired(p, timestamp)
    decreases |ps|
  {
    if |ps| == 0 then []
    else (if Expired(ps[0], timestamp) then [] else [ps[0]]) + Alive(ps[1..], timestamp)
  }

  /** The pieces of a list cut around one element. */
  lemma CutAround<T>(a: seq<T>, x: T, b: seq<T>)
    ensures (a + [x] + b)[..|a|] == a
    ensures (a + [x] + b)[|a|] == x
    ensures (a + [x] + b)[|a| + 1..] == b
    ensures a + [x] + b == a + ([x] + b)
  {
  }

  /** Filtering from position i is deciding on ps[i] and filtering the rest. */
  lemma AliveFrom(ps: seq<Particle>, i: nat, timestamp: int)
    requires i < |ps|
    ensures Alive(ps[i..], timestamp) ==
      (if Expired(ps[i], timestamp) then [] else [ps[i]]) + Alive(ps[i + 1..], timestamp)
  {
    assert ps[i..][1..] == ps[i + 1..];
  }

  /** One iteration of the removal loop: with everything after position i
      already filtered, splicing out ps[i] when it has expired leaves
      everything from position i on filtered. */
  lemma SpliceStep(ps: seq<Particle>, i: nat, timestamp: int, r: seq<Particle>)
    requires i < |ps| && r == ps[..i + 1] + Alive(ps[i + 1..], timestamp)
    ensures i < |r| && r[i] == ps[i]
    ensures Expired(ps[i], timestamp) ==> r[..i] + r[i + 1..] == ps[..i] + Alive(ps[i..], timestamp)
    ensures !Expired(ps[i], timestamp) ==> r == ps[..i] + Alive(ps[i..], timestamp)
  {
    var rest := Alive(ps[i + 1..], timestamp);
    assert ps[..i + 1] == ps[..i] + [ps[i]];
    CutAround(ps[..i], ps[i], rest);
    AliveFrom(ps, i, timestamp);
    if Expired(ps[i], timestamp) {
      assert [] + rest == rest;
    }
  }

  /** The removal loop of animateParticles: walking from the end, every
      expired particle is spliced out. */
  method AnimateParticles(ps: seq<Particle>, timestamp: int) returns (r: seq<Particle>)
    ensures r == Alive(ps, timestamp)
    ensures |r| <= |ps|
  {
    r := ps;
    var i := |ps|;
    assert ps[|ps|..] == [];
    while i > 0
      invariant 0 <= i <= |ps|
      invariant r == ps[..i] + Alive(ps[i..], timestamp)
    {
      i := i - 1;
      SpliceStep(ps, i, timestamp, r);
      if Expired(r[i], timestamp) {
        r := r[..i] + r[i + 1..];
      }
    }
    assert ps[0..] == ps;
  }

  /** One thing that can happen to the particle list. */
  datatype ParticleEvent = Spawn(level: int, now: int) | Frame(timestamp: int)

  function Replay(ps: seq<Particle>, events: seq<ParticleEvent>): seq<Particle>
    decreases |events|
  {
    if |events| == 0 then ps
    else
      var next := match events[0]
        case Spawn(level, now) => SpawnParticle(ps, level, now)
        case Frame(timestamp) => Alive(ps, timestamp);
      Replay(next, events[1..])
  }

  /** The active particle count never exceeds the cap, whatever happens. */
  lemma {:induction false} ParticleCapHolds(ps: seq<Particle>, events: seq<ParticleEvent>)
    requires |ps| <= ParticleCap
    ensures |Replay(ps, events)| <= ParticleCap
    decreases |events|
  {
    if |events| > 0 {
      var next := match events[0]
        case Spawn(level, now) => SpawnParticle(ps, level, now)
        case Frame(timestamp) => Alive(ps, timestamp);
      ParticleCapHolds(next, events[1..]);
    }
  }
}
